=== FILE: README.md ===
# cf-workers-proxy in Dafny

A model of the request/response rewriting core of a Cloudflare Worker
reverse proxy (`index.js`). A client reaches `<target>.b.com`. The worker
derives `<target>` from the host and forwards the request to
`https://<target>`. It then rewrites the answer so that redirects, page
text and cookies point back at the proxy host.

Every step is a pure function over strings, string lists and a Fetch-style
header list:

- `Text`: the JavaScript string operations the handler uses (`includes`,
  `split`, `replace` with and without `g`, `endsWith`, `trim`). Two pattern
  modes are modelled: literal, and the unescaped case-insensitive cookie
  pattern, in which `.` matches any character except a line terminator.
- `Headers`: `get`, `has`, `set`, `append` and `delete`. Each is specified
  by its effect on `Values`, the list of values a name holds.
- `Http`: responses, bodies, URLs cut around their hostname, and `Outcome`
  (a response, or an exception that escapes the handler).
- `Domain`: `getTargetDomain` and the deployed own domain `b.com`.
- `Outbound`: the request handed to `fetch`.
- `Rewrite`: the `Location`, body, `Set-Cookie` and final-header steps.
- `Proxy`: routing (`robots.txt`, empty target) and the whole handler.

`fetch`, the URL parser (`new URL(location, base)`) and `response.text()`
are function parameters (`Fetcher`, `Resolver`, `Decoder`).

Behaviour worth knowing, each proved as a lemma:

- `getTargetDomain("b.com", "b.com")` is `"b.com"`, so the own domain is
  proxied to itself instead of being rejected. The result is empty only
  for a host that starts with `.b.com`.
- `x.b.com` maps back to `x` whenever `x` holds no `.b.com`. This is true
  because `.b.com` has no proper suffix that is also a prefix. For an own
  domain such as `a.a` it fails: `q.a.a.a` yields `q`.
- A redirect hostname that ends with the target domain has its *first*
  occurrence of the target replaced, and that need not be the suffix.
- The rewritten body can still contain the target domain, because the
  proxy host contains it.
- The cookie step splits on every comma, including the comma inside an
  `Expires=Wed, 21 Oct ...` date. One cookie then comes back as two
  `Set-Cookie` lines.
- A listed content type on status 204 or 304 makes `new Response(text, …)`
  throw, so the request fails instead of passing the 304 on.

Other facts about the handler that the model keeps:

- It has no `try`: a rejected `fetch` escapes as an exception. There is no
  timeout and no 502 answer of its own.
- It sends the client's headers on unchanged apart from `Accept-Encoding`;
  in particular it does not set a `User-Agent`.
- `robots.txt` is answered for every method.
- The content-type test is a case-sensitive substring test.
- The body is decoded by `response.text()`, whatever charset the content
  type names.
- The body substitution is global and does not look at hostname boundaries.
- A redirect to a hostname that does not end with the target keeps its
  hostname; its `Location` is still rewritten to the resolved absolute URL.

## Model

| member | source | states |
|---|---|---|
| `Text.Find` | index.js:14 | the result is the left-most match of the pattern; there is none exactly when the pattern occurs nowhere |
| `Text.Contains` | index.js:106 | `includes` is the test that `Find` reports a match |
| `Text.ContainsIffOccurs` | index.js:106 | `includes` holds exactly when the pattern occurs at some position |
| `Text.EndsWith` | index.js:84 | `endsWith`: the suffix is no longer than the string and equals its tail |
| `Text.EndsWithIffMatchAtEnd` | index.js:84 | `endsWith` holds exactly when the suffix matches at the last possible position, and then the string also includes it |
| `Domain.TargetDomain` | index.js:13-15 | the target is a prefix of the host and holds no `"." + own`; it is the whole host exactly when the separator does not occur; otherwise it ends exactly where the first occurrence of the separator starts; it is empty exactly when the host is empty or starts with the separator |
| `Domain.TargetOfSubdomain` | index.js:13-15 | for a host `x + "." + own + rest` with `x` separator-free and the separator unbordered, the target is exactly `x` |
| `Domain.DeployedSeparatorUnbordered` | index.js:18 | the deployed separator `.b.com` has no proper border |
| `Domain.TargetOfDeployedSubdomain` | index.js:13-18 | under the deployed own domain, every `x.b.com...` host with `x` free of `.b.com` maps back to `x` |
| `Domain.BorderedSeparatorCutsEarly` | index.js:13-15 | with own domain `a.a` the host `q.a.a.a` maps to `q` although `q.a` holds no `.a.a` |
| `Domain.OwnDomainIsItsOwnTarget` | index.js:13-15 | the own domain itself maps to itself, so it does not take the empty-target path |
| `Domain.TargetOfDomainNameIsDomainName` | index.js:44 | a target derived from a domain-name host is a domain name |
| `Proxy.RouteRequest` | index.js:36-49 | `/robots.txt` is answered 200 with the fixed body before any derivation; an empty target is answered 400; otherwise the request is forwarded to the derived target |
| `Proxy.EarlyAnswersDoNotFetch` | index.js:36-49 | the robots and 400 answers are the same whatever `fetch` would do, so no outbound request is made |
| `Proxy.TextResponse` | index.js:40 | a string-bodied answer has the given status, a plain-text content type, reads back as the given text under any decoder, and carries no CORS header, because the early answers skip the final header step |
| `Outbound.BuildOutbound` | index.js:51-70 | the outbound request keeps the method, goes to `https://<target>` plus the client's path, query and fragment, has the client's headers except `Accept-Encoding`, carries the client's body exactly when the method is neither GET nor HEAD, and uses manual redirects |
| `Outbound.CarriesBody` | index.js:62 | a body is forwarded for every method except exactly `GET` and `HEAD`, compared case-sensitively |
| `Headers.Delete` | index.js:67 | after `delete` the name has no values; every other name keeps its values |
| `Headers.Has` | index.js:129 | `has` holds when the name has at least one value |
| `Headers.Get` | index.js:130 | `get` is absent exactly when `has` is false; otherwise it is all of the name's values joined with `", "`, and a single value comes back unchanged |
| `Headers.Append` | index.js:144 | after `append` the name has its old values followed by the new one; other names are untouched |
| `Headers.Set` | index.js:96 | after `set` the name has exactly the new value; every other name keeps its values |
| `Headers.AppendAll` | index.js:143-145 | appending adds the given values after the name's existing ones; other names are untouched |
| `Text.ReplaceFirst` | index.js:85 | with no match the string is unchanged; otherwise only the left-most match is replaced |
| `Rewrite.RewriteHostname` | index.js:84-88 | a hostname not ending with the target is unchanged; one that does has its first occurrence of the target replaced by the proxy host |
| `Rewrite.RedirectToTargetComesBack` | index.js:84-85 | a redirect to the target's own hostname is turned into the proxy host |
| `Rewrite.FirstOccurrenceNotSuffixIsReplaced` | index.js:84-85 | the replaced occurrence is the first one even when a later one made `endsWith` true |
| `Rewrite.LocationOf` | index.js:78-79 | the handler acts on `Location` only when the header is present and non-empty |
| `Rewrite.RewriteRedirect` | index.js:76-98 | on a non-redirect status or without a non-empty `Location` the response is untouched; otherwise the status and status text are kept, the body is dropped, `Location` holds the resolved URL with its hostname rewritten, other headers keep their values, and an unparsable `Location` throws |
| `Rewrite.RedirectKeepsCookiesAndType` | index.js:91-96 | the rebuilt redirect keeps the origin's `Set-Cookie` values and content type, so the later steps see them as the origin sent them |
| `Proxy.RedirectComesBackThroughProxy` | index.js:76-98 | end to end, a redirect to `https://<target>/foo` reaches the client as a redirect to `https://<proxy host>/foo`, whatever content type the redirect carries |
| `Rewrite.AnyIncluded` | index.js:106 | the test holds exactly when some listed type is a substring of the content type |
| `Rewrite.ShouldRewrite` | index.js:103-106 | the gate opens exactly when a content type is present and includes one of the listed types; the separate non-empty test never changes the outcome, because no listed type is empty |
| `Rewrite.HtmlWithCharsetIsRewritten` | index.js:103-106 | `text/html; charset=utf-8` opens the gate |
| `Rewrite.UnlistedTypesPassThrough` | index.js:103-106 | `application/octet-stream`, `TEXT/HTML` and a missing content type keep the gate shut |
| `Rewrite.GateShutWithoutMarkers` | index.js:21-29 | a content type that lacks `x` and `j`, or lacks a lower-case `t`, includes none of the listed types |
| `Rewrite.RewriteBody` | index.js:103-126 | with the gate shut the response passes through identical; with it open the body becomes the decoded text with every target occurrence replaced, under the same status, status text and headers; a text body on a null-body status throws |
| `Http.NullBodyStatus` | index.js:118-122 | the statuses 101, 204, 205 and 304, on which the `Response` constructor refuses a body |
| `Http.BodyText` | index.js:108 | `response.text()` reads a null body as the empty text, received bytes through the platform decoder, and produced text as itself |
| `Rewrite.NullBodyBecomesEmptyText` | index.js:106-122 | a listed content type on an ordinary status with no body reaches the client as an empty text body |
| `Text.ReplaceAll` | index.js:113-115 | global replacement leaves a text without the pattern unchanged |
| `Text.ReplaceAllSkips` | index.js:113-115 | where no match starts, the scan copies the text unchanged |
| `Text.ReplaceAllMatchesFind` | index.js:113-115 | the scan equals the left-to-right, non-overlapping find-replace-continue definition on every input |
| `Rewrite.RewrittenBodyStillMentionsTarget` | index.js:113-115 | because the proxy host begins with the target, a text that is just the target is rewritten into one that still begins with the target |
| `Proxy.TextBodyIsRewritten` | index.js:103-122 | end to end, a listed type on an ordinary status reaches the client with the rewritten body |
| `Proxy.TextTypeOnNullBodyStatusThrows` | index.js:118-122 | a listed type on status 304 makes the handler throw |
| `Text.Split` | index.js:133 | `split(',')` yields one more piece than there are commas, no piece holds a comma, and joining the pieces with commas gives back the string |
| `Text.JoinInjective` | index.js:133 | two lists of separator-free pieces that join to the same string are equal, so the pieces `split` returns are the only ones possible |
| `Text.SplitJoin` | index.js:133 | splitting comma-joined comma-free pieces gives back exactly those pieces |
| `Text.Trim` | index.js:144 | `trim` keeps an infix that neither starts nor ends with white space, and only white space is removed around it |
| `Text.TrimCharacterized` | index.js:144 | white space around a middle part that does not start or end with white space is exactly what `trim` removes |
| `Text.TrimIdempotent` | index.js:144 | trimming twice is trimming once |
| `Rewrite.LiteralDomainAttributeIsFound` | index.js:136 | a literal `Domain=<target>` is always matched by the case-insensitive pattern, at that position or earlier |
| `Rewrite.DomainAttributeRewritten` | index.js:134-137 | `Domain=<target>` preceded by no `d` becomes `Domain=<host>` and the rest of the cookie is unchanged |
| `Rewrite.CaseAndWildcardExample` | index.js:136 | `domain=TxIO` matches the pattern for target `t.io`: case is ignored and the dot stands for any character |
| `Rewrite.RewriteCookie` | index.js:136 | a cookie without a match of the case-insensitive `Domain=<target>` pattern is unchanged; otherwise the text before the first match and the text after it are kept, and only that match becomes `Domain=<host>` |
| `Rewrite.RewriteCookies` | index.js:129-146 | without `Set-Cookie` the headers are unchanged; otherwise one line per comma-separated piece, each with its first match rewritten and trimmed, and other headers keep their values |
| `Rewrite.CookieStepSeesOnlyCookies` | index.js:129-146 | the cookie step depends on nothing but the `Set-Cookie` values, and it leaves `Location` untouched |
| `Rewrite.CommaInsideCookieSplitsIt` | index.js:133-145 | one cookie value with one comma comes back as two `Set-Cookie` lines |
| `Rewrite.CommaFreeCookiesKeepTheirCount` | index.js:129-146 | when no original value holds a comma, as many lines come out as went in |
| `Rewrite.Finalize` | index.js:149-153 | `Access-Control-Allow-Origin` is `*`, `Content-Security-Policy` and `X-Frame-Options` are gone, every other header is as before |
| `Proxy.Respond` | index.js:73-156 | a produced response keeps the origin's status and status text and has the final header policy; the only exceptions are an unparsable `Location` on a redirect status, and a listed content type on a null-body status; with no redirect and the gate shut, the body is the origin's; on a non-redirect status the client gets exactly the `Set-Cookie` lines the cookie step makes from the origin's headers |
| `Proxy.Handle` | index.js:31-157 | robots and empty-target answers as above; the handler throws `FetchRejected` exactly when it forwards and `fetch` rejects; every successful forwarded answer has the origin's status, the CORS header and neither framing header; a forwarded request whose `fetch` succeeds gets exactly what the rewriting chain `Respond` makes of the origin's answer for the derived target |

## Left out

- The `fetch` listener registration and `event.respondWith` (index.js:3-5) are platform glue.
- Network and stream I/O are not modelled. `fetch`, `request.clone().arrayBuffer()` and `response.text()` are parameters or inputs. An incoming request without a body reads as no bytes.
- WHATWG URL parsing is not modelled. `new URL(location, actualUrl)` is the `Resolver` parameter. A parsed URL is its serialisation cut around the hostname, and the `hostname` setter replaces that middle part.
- `new URL(request.url)` is not modelled. The request arrives already split into host, path, query and fragment.
- The outbound URL is the concatenated string. Its re-serialisation by `new URL(...).toString()` is taken as the identity.
- `new URL(origin + ...)` (index.js:52) can throw for a target that the URL parser refuses, such as `256.1` from host `256.1.b.com`, which it reads as an invalid IPv4 address. The model forwards such a request instead of failing it.
- The `hostname` setter (index.js:85) parses the new value and silently keeps the old hostname when that parse fails, for example when the new last label is numeric but the whole is not valid IPv4. The model always installs the replaced hostname.
- Proxy.Handle: requires the host to be a lower-case ASCII domain name without a port. Such a host holds no regex metacharacter other than `.` and no `$` replacement pattern. Under that restriction, the escaped body regex is a literal pattern and the cookie regex is an ASCII case-folding match with `.` as wildcard. Hosts with a port are not modelled, because the `hostname` setter behaves differently for them.
- Strings are sequences of Unicode scalar values, not UTF-16 code units. A `.` in the cookie pattern meeting a character outside the Basic Multilingual Plane is not modelled.
- Headers are an ordered list with case-insensitive names. Value normalisation, sorted iteration and recomputation of `content-length` are not modelled. The values the handler writes have no surrounding white space.
- The `Response` constructor is modelled only as far as the handler exercises it: the null-body-status check and the plain-text content type of a string body. Its status-range check is not modelled, because origin statuses come from `fetch`.

=== FILE: domain.dfy ===
/**
 Target-domain derivation: the proxy host `<target>.<own domain>` names the
 site to mirror, and `getTargetDomain` recovers `<target>` by cutting the host
 at the first occurrence of a dot followed by the own domain.
 */
module Domain {
  import opened Text

  /** The domain the worker is deployed under. */
  const OwnDomain: string := "b.com"

  predicate DomainChar(c: char)
  {
    'a' <= c <= 'z' || '0' <= c <= '9' || c == '-' || c == '.'
  }

  /** A host as the URL parser hands it over for a domain without a port:
      lower-case ASCII letters, digits, hyphens and dots. */
  predicate DomainName(s: string)
  {
    forall k :: 0 <= k < |s| ==> DomainChar(s[k])
  }

  /** No proper suffix of `p` is also a prefix of it, so two occurrences of `p`
      can never overlap. */
  predicate Unbordered(p: string)
  {
    forall k :: 0 < k < |p| ==> p[k..] != p[..|p| - k]
  }

  lemma MatchInPrefix(mode: Mode, s: string, n: nat, pat: string, j: int)
    requires n <= |s|
    ensures MatchAt(mode, s[..n], pat, j) ==> MatchAt(mode, s, pat, j)
  {
    if MatchAt(mode, s[..n], pat, j) {
      forall k | 0 <= k < |pat| ensures CharMatch(mode, s[j + k], pat[k]) {
        assert s[..n][j + k] == s[j + k];
      }
    }
  }

  /** The target derived from a host: the text before the first occurrence
      of a dot followed by the own domain, or the whole host when there is
      none. */
  function TargetDomain(host: string, own: string): (r: string)
    ensures r <= host
    ensures NoMatch(Literal, r, "." + own)
    ensures r == host <==> NoMatch(Literal, host, "." + own)
    ensures r == [] <==> host == [] || MatchAt(Literal, host, "." + own, 0)
    ensures r != host ==> FirstMatch(Literal, host, "." + own, |r|)
  {
    var sep := "." + own;
    match Find(Literal, host, sep)
    case None => host
    case Some(i) =>
      forall j ensures !MatchAt(Literal, host[..i], sep, j) {
        MatchInPrefix(Literal, host, i, sep, j);
      }
      host[..i]
  }

  /** A host that does not contain the separator at all — the own domain
      itself among them — is returned whole, so it does not take the
      empty-target path. */
  lemma OwnDomainIsItsOwnTarget(own: string)
    ensures TargetDomain(own, own) == own
  {
    var sep := "." + own;
    forall j ensures !MatchAt(Literal, own, sep, j) {
    }
  }

  /** An occurrence of an unbordered separator cannot start inside `x` and
      end inside the separator that follows `x`. */
  lemma NoStraddlingMatch(x: string, sep: string, rest: string, j: nat)
    requires Unbordered(sep)
    requires j < |x| < j + |sep|
    ensures !MatchAt(Literal, x + sep + rest, sep, j)
  {
    var h := x + sep + rest;
    var k := |x| - j;
    assert sep[k..] != sep[..|sep| - k];
    LiteralMatchIsSlice(h, sep, j);
    assert h[|x|..j + |sep|] == sep[..|sep| - k];
    assert j + |sep| <= |h| ==> h[j..j + |sep|][k..] == h[|x|..j + |sep|];
  }

  /** A match that lies wholly inside the front part of a concatenation is a
      match in that part. */
  lemma MatchInside(x: string, y: string, pat: string, j: nat)
    requires j + |pat| <= |x|
    ensures MatchAt(Literal, x + y, pat, j) ==> MatchAt(Literal, x, pat, j)
  {
    if MatchAt(Literal, x + y, pat, j) {
      forall k | 0 <= k < |pat| ensures CharMatch(Literal, x[j + k], pat[k]) {
        assert (x + y)[j + k] == x[j + k];
      }
    }
  }

  /** For a host `x + "." + own + rest` whose label part `x` holds no
      separator, the derived target is exactly `x` — provided the separator
      is unbordered. */
  lemma TargetOfSubdomain(x: string, own: string, rest: string)
    requires Unbordered("." + own)
    requires NoMatch(Literal, x, "." + own)
    ensures TargetDomain(x + "." + own + rest, own) == x
  {
    var sep := "." + own;
    var h := x + sep + rest;
    assert x + "." + own + rest == h;
    LiteralMatchIsSlice(h, sep, |x|);
    assert h[|x|..|x| + |sep|] == sep;
    forall j | 0 <= j < |x| ensures !MatchAt(Literal, h, sep, j) {
      if j + |sep| <= |x| {
        MatchInside(x, sep + rest, sep, j);
        assert x + (sep + rest) == h;
      } else {
        NoStraddlingMatch(x, sep, rest, j);
      }
    }
    FindIsFirstMatch(Literal, h, sep, |x|);
    assert h[..|x|] == x;
  }

  /** The deployed separator `.b.com` is unbordered, so for the deployed
      domain every `x.b.com` maps back to `x`. */
  lemma DeployedSeparatorUnbordered()
    ensures Unbordered("." + OwnDomain)
  {
    var p := "." + OwnDomain;
    assert p == ['.', 'b', '.', 'c', 'o', 'm'];
    forall k | 0 < k < |p| ensures p[k..] != p[..|p| - k] {
      assert p[k..][0] != p[..|p| - k][0] || p[k..][1] != p[..|p| - k][1];
    }
  }

  lemma TargetOfDeployedSubdomain(x: string, rest: string)
    requires NoMatch(Literal, x, "." + OwnDomain)
    ensures TargetDomain(x + "." + OwnDomain + rest, OwnDomain) == x
  {
    DeployedSeparatorUnbordered();
    TargetOfSubdomain(x, OwnDomain, rest);
  }

  /** With a bordered separator the cut can come earlier than `x` ends: for
      own domain `a.a` the host `q.a.a.a` yields `q`, not `q.a`, although `q.a`
      holds no `.a.a`. */
  lemma BorderedSeparatorCutsEarly()
    ensures NoMatch(Literal, "q.a", "." + "a.a")
    ensures TargetDomain("q.a" + "." + "a.a", "a.a") == "q"
  {
    var sep := "." + "a.a";
    var h := "q.a" + sep;
    assert sep == ".a.a";
    assert h == "q.a.a.a";
    LiteralMatchIsSlice(h, sep, 1);
    assert h[1..5] == sep;
    assert !CharMatch(Literal, h[0 + 0], sep[0]);
    FindIsFirstMatch(Literal, h, sep, 1);
    assert "q.a" + "." + "a.a" == h;
    assert TargetDomain(h, "a.a") == h[..1];
    assert h[..1] == "q";
  }

  /** Every prefix of a domain name is one. */
  lemma TargetOfDomainNameIsDomainName(host: string, own: string)
    requires DomainName(host)
    ensures DomainName(TargetDomain(host, own))
  {
    var r := TargetDomain(host, own);
    assert forall k :: 0 <= k < |r| ==> r[k] == host[k];
  }
}

=== FILE: headers.dfy ===
/**
 A Fetch-standard header list: an ordered list of name/value lines in which
 names compare ASCII-case-insensitively and a name may occur several times.
 Every operation the handler performs on a `Headers` object — `get`, `has`,
 `set`, `append`, `delete` — is a pure function here, and each is specified
 by what it does to `Values`, the per-name view of the list.
 */
module Headers {
  import opened Text

  datatype Header = Header(name: string, value: string)

  type HeaderList = seq<Header>

  predicate SameName(a: string, b: string)
  {
    LowerAscii(a) == LowerAscii(b)
  }

  /** The values of every line called `name`, in list order. */
  function Values(h: HeaderList, name: string): seq<string>
    decreases |h|
  {
    if |h| == 0 then []
    else (if SameName(h[0].name, name) then [h[0].value] else []) + Values(h[1..], name)
  }

  lemma {:induction false} ValuesConcat(a: HeaderList, b: HeaderList, name: string)
    ensures Values(a + b, name) == Values(a, name) + Values(b, name)
    decreases |a|
  {
    if |a| > 0 {
      assert (a + b)[1..] == a[1..] + b;
      ValuesConcat(a[1..], b, name);
    } else {
      assert a + b == b;
    }
  }

  /** `headers.get(name)`: absent when no line has the name, otherwise all its
      values combined with ", ". */
  function Get(h: HeaderList, name: string): (r: Option<string>)
    ensures r.None? <==> !Has(h, name)
    ensures r.Some? ==> r.value == Join(Values(h, name), ", ")
    ensures |Values(h, name)| == 1 ==> r == Some(Values(h, name)[0])
  {
    var vs := Values(h, name);
    if |vs| == 0 then None else Some(Join(vs, ", "))
  }

  /** `headers.has(name)`. */
  predicate Has(h: HeaderList, name: string)
  {
    |Values(h, name)| > 0
  }

  /** `headers.delete(name)`: every line with the name goes, the others stay in order. */
  function Delete(h: HeaderList, name: string): (r: HeaderList)
    ensures Values(r, name) == []
    ensures forall n :: !SameName(n, name) ==> Values(r, n) == Values(h, n)
    ensures forall k :: 0 <= k < |r| ==> r[k] in h
    decreases |h|
  {
    if |h| == 0 then []
    else
      var rest := Delete(h[1..], name);
      if SameName(h[0].name, name) then rest
      else
        var r := [h[0]] + rest;
        assert r[1..] == rest;
        r
  }

  /** `headers.append(name, value)`: one more line at the end. */
  function Append(h: HeaderList, name: string, value: string): (r: HeaderList)
    ensures Values(r, name) == Values(h, name) + [value]
    ensures forall n :: !SameName(n, name) ==> Values(r, n) == Values(h, n)
  {
    var line := [Header(name, value)];
    assert forall n :: Values(line, n) == (if SameName(name, n) then [value] else []) by {
      forall n ensures Values(line, n) == (if SameName(name, n) then [value] else []) {
        assert line[1..] == [];
      }
    }
    forall n ensures Values(h + line, n) == Values(h, n) + Values(line, n) {
      ValuesConcat(h, line, n);
    }
    h + line
  }

  /** Appends each of `values` in turn under `name`. */
  function AppendAll(h: HeaderList, name: string, values: seq<string>): (r: HeaderList)
    ensures Values(r, name) == Values(h, name) + values
    ensures forall n :: !SameName(n, name) ==> Values(r, n) == Values(h, n)
    decreases |values|
  {
    if |values| == 0 then h
    else
      var r := AppendAll(Append(h, name, values[0]), name, values[1..]);
      assert [values[0]] + values[1..] == values;
      r
  }

  /** Deleting a name and appending new values replaces its values outright. */
  lemma ReplaceValues(h: HeaderList, name: string, values: seq<string>)
    ensures Values(AppendAll(Delete(h, name), name, values), name) == values
    ensures forall n :: !SameName(n, name) ==> Values(AppendAll(Delete(h, name), name, values), n) == Values(h, n)
  {
    assert [] + values == values;
  }

  /** `headers.set(name, value)` on a list that already has the name: the first
      such line takes the new value, later ones are dropped. */
  function SetExisting(h: HeaderList, name: string, value: string): (r: HeaderList)
    requires Has(h, name)
    ensures Values(r, name) == [value]
    ensures forall n :: !SameName(n, name) ==> Values(r, n) == Values(h, n)
    decreases |h|
  {
    if SameName(h[0].name, name) then
      var rest := Delete(h[1..], name);
      var r := [Header(h[0].name, value)] + rest;
      assert r[1..] == rest;
      r
    else
      var rest := SetExisting(h[1..], name, value);
      var r := [h[0]] + rest;
      assert r[1..] == rest;
      r
  }

  /** `headers.set(name, value)`: afterwards the name has exactly this one value. */
  function Set(h: HeaderList, name: string, value: string): (r: HeaderList)
    ensures Values(r, name) == [value]
    ensures forall n :: !SameName(n, name) ==> Values(r, n) == Values(h, n)
  {
    if Has(h, name) then SetExisting(h, name, value) else Append(h, name, value)
  }

  /** What `get` reports after `set` and after `delete`. */
  lemma GetAfterSetAndDelete(h: HeaderList, name: string, value: string)
    ensures Get(Set(h, name, value), name) == Some(value)
    ensures Get(Delete(h, name), name) == None
    ensures !Has(Delete(h, name), name)
  {
  }
}

=== FILE: http.dfy ===
/**
 The values that flow through the handler: response bodies, responses,
 serialised URLs and the outcome of a handler run.
 */
module Http {
  import opened Text
  import opened Headers

  newtype byte = x: int | 0 <= x < 256

  /** A response body: none at all (`null`), the origin's bytes as received,
      or text the handler produced. */
  datatype Body = Null | Raw(bytes: seq<byte>) | Decoded(text: string)

  datatype Response = Response(status: int, statusText: string, headers: HeaderList, body: Body)

  /** The exceptions that escape the handler; it has no `try`, so each one
      fails the request instead of producing a response. */
  datatype Fault =
    | FetchRejected          // `fetch` itself rejected (DNS, TLS, connection)
    | InvalidLocation        // `new URL(location, base)` threw
    | BodyOnNullBodyStatus   // `new Response(text, init)` with status 101, 204, 205 or 304

  datatype Outcome<+T> = Done(value: T) | Thrown(fault: Fault)
  {
    predicate IsFailure()
    {
      Thrown?
    }

    function PropagateFailure<U>(): Outcome<U>
      requires Thrown?
    {
      Thrown(fault)
    }

    function Extract(): T
      requires Done?
    {
      value
    }
  }

  /** A parsed absolute URL, kept as its serialisation cut around the hostname:
      `href == beforeHost + hostname + afterHost`. Setting `hostname` replaces
      the middle part. */
  datatype Url = Url(beforeHost: string, hostname: string, afterHost: string)
  {
    function Href(): string
    {
      beforeHost + hostname + afterHost
    }
  }

  /** `new URL(location, base)`: the platform's URL parser, or `None` where it throws. */
  type Resolver = (string, string) -> Option<Url>

  /** `response.text()`: the platform's decoding of a body's bytes. */
  type Decoder = seq<byte> -> string

  /** Statuses for which the Fetch standard forbids a response body. */
  predicate NullBodyStatus(status: int)
  {
    status == 101 || status == 204 || status == 205 || status == 304
  }

  /** The text `response.text()` yields for a body. */
  function BodyText(b: Body, decode: Decoder): string
  {
    match b
    case Null => ""
    case Raw(bytes) => decode(bytes)
    case Decoded(text) => text
  }
}

=== FILE: outbound.dfy ===
/**
 Outbound request shaping: the request forwarded to the target keeps the
 client's method, path, query and fragment, goes to `https://<target>`,
 drops `Accept-Encoding`, carries a body only when the method is neither
 GET nor HEAD, and asks for redirects to be handed back unfollowed.
 */
module Outbound {
  import opened Text
  import opened Headers
  import opened Http

  /** The parts of the client's URL the handler reads. */
  datatype RequestUrl = RequestUrl(host: string, pathname: string, search: string, hash: string)

  /** The client's request; a request without a body reads as no bytes. */
  datatype IncomingRequest = IncomingRequest(verb: string, url: RequestUrl, headers: HeaderList, body: seq<byte>)

  datatype RedirectMode = Follow | Manual

  datatype OutboundRequest = OutboundRequest(
    verb: string,
    url: string,
    headers: HeaderList,
    body: Option<seq<byte>>,
    redirect: RedirectMode)

  /** A request body is forwarded for every method other than GET and HEAD;
      the method name is compared exactly, case included. */
  predicate CarriesBody(verb: string)
  {
    verb != "GET" && verb != "HEAD"
  }

  /** The URL the request is forwarded to: the `https` origin of the target,
      then the client's path, query and fragment as they were. */
  function TargetUrl(target: string, u: RequestUrl): string
  {
    "https://" + target + u.pathname + u.search + u.hash
  }

  /** The request handed to `fetch`. */
  function BuildOutbound(req: IncomingRequest, target: string): (out: OutboundRequest)
    ensures out.verb == req.verb
    ensures out.url == TargetUrl(target, req.url)
    ensures !Has(out.headers, "Accept-Encoding")
    ensures forall n :: !SameName(n, "Accept-Encoding") ==> Values(out.headers, n) == Values(req.headers, n)
    ensures out.body.Some? <==> CarriesBody(req.verb)
    ensures out.body.Some? ==> out.body.value == req.body
    ensures out.redirect == Manual
  {
    OutboundRequest(
      req.verb,
      TargetUrl(target, req.url),
      Delete(req.headers, "Accept-Encoding"),
      if CarriesBody(req.verb) then Some(req.body) else None,
      Manual)
  }
}

=== FILE: proxy.dfy ===
/**
 The request handler end to end: the `robots.txt` short-circuit, the
 empty-target rejection, the outbound request, and the chain of response
 rewriters. `fetch`, the URL parser and the body decoder are parameters.
 */
module Proxy {
  import opened Text
  import opened Headers
  import opened Http
  import opened Domain
  import opened Outbound
  import opened Rewrite

  /** The `robots.txt` body, including the line break and four spaces that
      precede the closing quote of its template literal. */
  const RobotsTxt: string := "User-agent: *\nDisallow: /\n    "

  /** The 400 body: "bad request: no target domain specified in the host." */
  const NoTargetMessage: string :=
    "\U{9519}\U{8BEF}\U{7684}\U{8BF7}\U{6C42}\U{FF1A}\U{4E3B}\U{673A}\U{4E2D}\U{672A}\U{6307}\U{5B9A}\U{76EE}\U{6807}\U{57DF}\U{540D}\U{3002}"

  /** `fetch(request)`: the origin's response, or `None` when it rejects. */
  type Fetcher = OutboundRequest -> Option<Response>

  /** `new Response(text, { status })`: a string body brings a plain-text
      content type and an empty status text. */
  function TextResponse(status: int, text: string): (r: Response)
    ensures r.status == status
    ensures Get(r.headers, "content-type") == Some("text/plain;charset=UTF-8")
    ensures forall decode: Decoder :: BodyText(r.body, decode) == text
    ensures !Has(r.headers, "Access-Control-Allow-Origin")
  {
    Response(status, "", [Header("content-type", "text/plain;charset=UTF-8")], Decoded(text))
  }

  /** What the handler decides before it calls `fetch`. */
  datatype Route = Answer(response: Response) | Forward(request: OutboundRequest, target: string)

  function RouteRequest(req: IncomingRequest): (r: Route)
    ensures req.url.pathname == "/robots.txt" ==> r == Answer(TextResponse(200, RobotsTxt))
    ensures req.url.pathname != "/robots.txt" && TargetDomain(req.url.host, OwnDomain) == [] ==>
      r == Answer(TextResponse(400, NoTargetMessage))
    ensures r.Forward? <==> req.url.pathname != "/robots.txt" && TargetDomain(req.url.host, OwnDomain) != []
    ensures r.Forward? ==> r.target == TargetDomain(req.url.host, OwnDomain) && r.request == BuildOutbound(req, r.target)
  {
    if req.url.pathname == "/robots.txt" then Answer(TextResponse(200, RobotsTxt))
    else
      var target := TargetDomain(req.url.host, OwnDomain);
      if target == [] then Answer(TextResponse(400, NoTargetMessage))
      else Forward(BuildOutbound(req, target), target)
  }

  /** The rewriting chain applied to the origin's response. */
  function Respond(origin: Response, req: IncomingRequest, target: string, resolve: Resolver, decode: Decoder): (r: Outcome<Response>)
    requires |target| > 0
    ensures r.Done? ==> r.value.status == origin.status && r.value.statusText == origin.statusText
    ensures r.Done? ==>
      && Values(r.value.headers, "Access-Control-Allow-Origin") == ["*"]
      && !Has(r.value.headers, "Content-Security-Policy")
      && !Has(r.value.headers, "X-Frame-Options")
    ensures r.Thrown? ==> r.fault == InvalidLocation || r.fault == BodyOnNullBodyStatus
    ensures r == Thrown(InvalidLocation) ==>
      && origin.status in RedirectStatuses
      && LocationOf(origin).Some?
      && resolve(LocationOf(origin).value, TargetUrl(target, req.url)).None?
    ensures r == Thrown(BodyOnNullBodyStatus) ==>
      NullBodyStatus(origin.status) && ShouldRewrite(Get(origin.headers, "content-type"))
    ensures origin.status !in RedirectStatuses && !ShouldRewrite(Get(origin.headers, "content-type")) ==>
      r.Done? && r.value.body == origin.body
    ensures (origin.status in RedirectStatuses && LocationOf(origin).Some? &&
      resolve(LocationOf(origin).value, TargetUrl(target, req.url)).None?) ==>
      r == Thrown(InvalidLocation)
    ensures NullBodyStatus(origin.status) && ShouldRewrite(Get(origin.headers, "content-type")) ==>
      r == Thrown(BodyOnNullBodyStatus)
    ensures (origin.status in RedirectStatuses && LocationOf(origin).Some? &&
      resolve(LocationOf(origin).value, TargetUrl(target, req.url)).Some?) ==>
      var u := resolve(LocationOf(origin).value, TargetUrl(target, req.url)).value;
      && r.Done?
      && Values(r.value.headers, "Location") == [u.(hostname := RewriteHostname(u.hostname, target, req.url.host)).Href()]
      && r.value.body == (if ShouldRewrite(Get(origin.headers, "content-type")) then Decoded("") else Null)
    ensures r.Done? ==>
      Values(r.value.headers, "Set-Cookie") == Values(RewriteCookies(origin.headers, target, req.url.host), "Set-Cookie")
  {
    var host := req.url.host;
    var redirected :- RewriteRedirect(origin, TargetUrl(target, req.url), target, host, resolve);
    RedirectKeepsCookiesAndType(origin, redirected, TargetUrl(target, req.url), target, host, resolve);
    var rewritten :- RewriteBody(redirected, target, host, decode);
    EmptyTextStaysEmpty(target, host);
    CookieStepSeesOnlyCookies(rewritten.headers, origin.headers, target, host);
    var cookies := RewriteCookies(rewritten.headers, target, host);
    FinalizeKeepsCookies(cookies);
    FinalizeKeepsLocation(cookies);
    Done(rewritten.(headers := Finalize(cookies)))
  }

  /** `handleRequest(request)`, for a host that is a domain name without a port. */
  function Handle(req: IncomingRequest, fetch: Fetcher, resolve: Resolver, decode: Decoder): (r: Outcome<Response>)
    requires DomainName(req.url.host)
    ensures req.url.pathname == "/robots.txt" ==> r == Done(TextResponse(200, RobotsTxt))
    ensures req.url.pathname != "/robots.txt" && TargetDomain(req.url.host, OwnDomain) == [] ==>
      r == Done(TextResponse(400, NoTargetMessage))
    ensures r == Thrown(FetchRejected) <==>
      RouteRequest(req).Forward? && fetch(RouteRequest(req).request).None?
    ensures RouteRequest(req).Forward? && r.Done? ==>
      var origin := fetch(RouteRequest(req).request);
      && origin.Some?
      && r.value.status == origin.value.status
      && Values(r.value.headers, "Access-Control-Allow-Origin") == ["*"]
      && !Has(r.value.headers, "Content-Security-Policy")
      && !Has(r.value.headers, "X-Frame-Options")
    ensures RouteRequest(req).Forward? && fetch(RouteRequest(req).request).Some? ==>
      r == Respond(fetch(RouteRequest(req).request).value, req, RouteRequest(req).target, resolve, decode)
  {
    match RouteRequest(req)
    case Answer(resp) => Done(resp)
    case Forward(out, target) =>
      match fetch(out)
      case None => Thrown(FetchRejected)
      case Some(origin) => Respond(origin, req, target, resolve, decode)
  }

  /** The `robots.txt` answer and the 400 answer do not depend on `fetch` at
      all: no outbound request is made for them. */
  lemma EarlyAnswersDoNotFetch(req: IncomingRequest, f: Fetcher, g: Fetcher, resolve: Resolver, decode: Decoder)
    requires DomainName(req.url.host)
    requires req.url.pathname == "/robots.txt" || TargetDomain(req.url.host, OwnDomain) == []
    ensures RouteRequest(req).Answer?
    ensures Handle(req, f, resolve, decode) == Handle(req, g, resolve, decode)
  {
  }

  /** A redirect from the origin to its own hostname sends the client back
      through the proxy: with host `target.example.b.com`, a 302 to
      `https://target.example/foo` becomes a 302 to
      `https://target.example.b.com/foo`. */
  lemma RedirectComesBackThroughProxy(req: IncomingRequest, origin: Response, resolve: Resolver, decode: Decoder, target: string)
    requires |target| > 0
    requires origin.status in RedirectStatuses
    requires LocationOf(origin).Some?
    requires resolve(LocationOf(origin).value, TargetUrl(target, req.url)).Some?
    requires resolve(LocationOf(origin).value, TargetUrl(target, req.url)).value.hostname == target
    ensures var u := resolve(LocationOf(origin).value, TargetUrl(target, req.url)).value;
      && Respond(origin, req, target, resolve, decode).Done?
      && Values(Respond(origin, req, target, resolve, decode).value.headers, "Location") == [u.beforeHost + req.url.host + u.afterHost]
  {
    var host := req.url.host;
    var redirected := RewriteRedirect(origin, TargetUrl(target, req.url), target, host, resolve).value;
    RedirectToTargetComesBack(target, host);
    assert !NullBodyStatus(redirected.status);
    assert RewriteBody(redirected, target, host, decode).Done?;
    assert RewriteBody(redirected, target, host, decode).value.headers == redirected.headers;
    var cookies := RewriteCookies(redirected.headers, target, host);
    assert !SameName("Location", "Set-Cookie");
    assert !SameName("Location", "Access-Control-Allow-Origin");
    assert !SameName("Location", "Content-Security-Policy");
    assert !SameName("Location", "X-Frame-Options");
  }

  /** A listed content type on an ordinary status: the client gets the
      decoded body with every occurrence of the target domain replaced by
      the proxy host, under the origin's status. */
  lemma TextBodyIsRewritten(req: IncomingRequest, origin: Response, resolve: Resolver, decode: Decoder, target: string)
    requires |target| > 0
    requires origin.status !in RedirectStatuses && !NullBodyStatus(origin.status)
    requires ShouldRewrite(Get(origin.headers, "content-type"))
    ensures Respond(origin, req, target, resolve, decode).Done?
    ensures Respond(origin, req, target, resolve, decode).value.body
         == Decoded(ReplaceAllByFind(BodyText(origin.body, decode), target, req.url.host))
  {
    var host := req.url.host;
    assert RewriteRedirect(origin, TargetUrl(target, req.url), target, host, resolve) == Done(origin);
    var rewritten := RewriteBody(origin, target, host, decode);
    assert rewritten.Done? && rewritten.value.body == Decoded(ReplaceAllByFind(BodyText(origin.body, decode), target, host));
  }

  /** A listed content type on a status that forbids a body (a 304 answering
      a conditional request, say) makes the handler throw. */
  lemma TextTypeOnNullBodyStatusThrows(req: IncomingRequest, origin: Response, resolve: Resolver, decode: Decoder, target: string)
    requires |target| > 0
    requires origin.status == 304
    requires ShouldRewrite(Get(origin.headers, "content-type"))
    ensures Respond(origin, req, target, resolve, decode) == Thrown(BodyOnNullBodyStatus)
  {
    var host := req.url.host;
    assert RewriteRedirect(origin, TargetUrl(target, req.url), target, host, resolve) == Done(origin);
    assert RewriteBody(origin, target, host, decode) == Thrown(BodyOnNullBodyStatus);
  }
}

=== FILE: rewrite.dfy ===
/**
 The response rewriters, in the order the handler applies them: the redirect
 `Location`, the body (gated by content type), the `Set-Cookie` lines, and
 the final CORS / framing policy on the headers.
 */
module Rewrite {
  import opened Text
  import opened Headers
  import opened Http

  /** Statuses whose `Location` the handler rewrites. */
  const RedirectStatuses: seq<int> := [301, 302, 303, 307, 308]

  /** Content types whose bodies are rewritten, each tested as a substring. */
  const ContentTypesToProcess: seq<string> :=
    ["text/html", "text/css", "application/javascript", "application/x-javascript", "text/javascript", "application/json"]

  /** The combined `Location` value, when there is one and it is not empty. */
  function LocationOf(resp: Response): (r: Option<string>)
    ensures r.Some? ==> r.value != "" && Get(resp.headers, "Location") == Some(r.value)
    ensures r.None? ==> Get(resp.headers, "Location") in {None, Some("")}
  {
    match Get(resp.headers, "Location")
    case None => None
    case Some(v) => if v == "" then None else Some(v)
  }

  /** The hostname a redirect is sent to: when it ends with the target domain,
      the first occurrence of the target domain (which need not be that
      suffix) becomes the proxy host; otherwise it is left alone. */
  function RewriteHostname(hostname: string, target: string, host: string): (r: string)
    ensures !EndsWith(hostname, target) ==> r == hostname
    ensures EndsWith(hostname, target) ==> Find(Literal, hostname, target).Some?
    ensures forall i :: EndsWith(hostname, target) && FirstMatch(Literal, hostname, target, i) ==>
      r == hostname[..i] + host + hostname[i + |target|..]
  {
    if EndsWith(hostname, target) then
      LiteralMatchIsSlice(hostname, target, |hostname| - |target|);
      ReplaceFirst(Literal, hostname, target, host)
    else hostname
  }

  /** A redirect straight to the target comes back to the proxy host. */
  lemma RedirectToTargetComesBack(target: string, host: string)
    ensures RewriteHostname(target, target, host) == host
  {
    LiteralMatchIsSlice(target, target, 0);
    FindIsFirstMatch(Literal, target, target, 0);
    assert target[..0] + host + target[|target|..] == host;
  }

  /** Only the first occurrence is replaced, even when the match that made
      `endsWith` true is a later one. */
  lemma FirstOccurrenceNotSuffixIsReplaced()
    ensures RewriteHostname("a.io.x.a.io", "a.io", "a.io.b.com") == "a.io.b.com.x.a.io"
  {
    var h := "a.io.x.a.io";
    LiteralMatchIsSlice(h, "a.io", 0);
    assert h[0..4] == "a.io";
    assert h[7..] == "a.io";
    FindIsFirstMatch(Literal, h, "a.io", 0);
    assert h[..0] + "a.io.b.com" + h[4..] == "a.io.b.com.x.a.io";
  }

  /** The redirect step. On one of the five redirect statuses with a non-empty
      `Location`, the response is rebuilt with no body and a `Location` whose
      resolved hostname went through `RewriteHostname`; a `Location` the URL
      parser rejects escapes as an exception. Everything else passes as is. */
  function RewriteRedirect(resp: Response, base: string, target: string, host: string, resolve: Resolver): (r: Outcome<Response>)
    ensures resp.status !in RedirectStatuses || LocationOf(resp).None? ==> r == Done(resp)
    ensures resp.status in RedirectStatuses && LocationOf(resp).Some? && resolve(LocationOf(resp).value, base).None? ==>
      r == Thrown(InvalidLocation)
    ensures resp.status in RedirectStatuses && LocationOf(resp).Some? && resolve(LocationOf(resp).value, base).Some? ==>
      var u := resolve(LocationOf(resp).value, base).value;
      && r.Done?
      && r.value.status == resp.status
      && r.value.statusText == resp.statusText
      && r.value.body == Null
      && Values(r.value.headers, "Location") == [u.(hostname := RewriteHostname(u.hostname, target, host)).Href()]
      && forall n :: !SameName(n, "Location") ==> Values(r.value.headers, n) == Values(resp.headers, n)
  {
    if resp.status in RedirectStatuses && LocationOf(resp).Some? then
      match resolve(LocationOf(resp).value, base)
      case None => Thrown(InvalidLocation)
      case Some(u) =>
        var moved := u.(hostname := RewriteHostname(u.hostname, target, host));
        Done(Response(resp.status, resp.statusText, Set(resp.headers, "Location", moved.Href()), Null))
    else Done(resp)
  }

  /** Whether the content type includes at least one of the given types,
      each tested as a case-sensitive substring. */
  function AnyIncluded(contentType: string, types: seq<string>): (r: bool)
    ensures r <==> exists k :: 0 <= k < |types| && Contains(contentType, types[k])
    decreases |types|
  {
    if |types| == 0 then false
    else
      var r := Contains(contentType, types[0]) || AnyIncluded(contentType, types[1..]);
      assert forall k :: 1 <= k < |types| ==> types[1..][k - 1] == types[k];
      r
  }

  /** No listed type is empty, so the empty content type includes none of them. */
  lemma EmptyTypeIncludesNone()
    ensures forall k :: 0 <= k < |ContentTypesToProcess| ==> !Contains("", ContentTypesToProcess[k])
  {
    forall k | 0 <= k < |ContentTypesToProcess| ensures !Contains("", ContentTypesToProcess[k]) {
      assert forall j :: !MatchAt(Literal, "", ContentTypesToProcess[k], j);
    }
  }

  /** The gate on body rewriting: a content type is present, non-empty and
      contains one of the listed types, compared case-sensitively. */
  function ShouldRewrite(contentType: Option<string>): (r: bool)
    ensures r <==> (contentType.Some? &&
      exists k :: 0 <= k < |ContentTypesToProcess| && Contains(contentType.value, ContentTypesToProcess[k]))
  {
    EmptyTypeIncludesNone();
    contentType.Some? && contentType.value != "" && AnyIncluded(contentType.value, ContentTypesToProcess)
  }

  /** The body step. When the gate opens, the body is read as text and every
      occurrence of the target domain is replaced by the proxy host; status,
      status text and headers are kept. A text body on a status that may not
      carry one makes the `Response` constructor throw. When the gate stays
      shut, the response passes through untouched. */
  function RewriteBody(resp: Response, target: string, host: string, decode: Decoder): (r: Outcome<Response>)
    requires |target| > 0
    ensures !ShouldRewrite(Get(resp.headers, "content-type")) ==> r == Done(resp)
    ensures ShouldRewrite(Get(resp.headers, "content-type")) && NullBodyStatus(resp.status) ==>
      r == Thrown(BodyOnNullBodyStatus)
    ensures ShouldRewrite(Get(resp.headers, "content-type")) && !NullBodyStatus(resp.status) ==>
      && r.Done?
      && r.value.status == resp.status
      && r.value.statusText == resp.statusText
      && r.value.headers == resp.headers
      && r.value.body == Decoded(ReplaceAllByFind(BodyText(resp.body, decode), target, host))
  {
    if ShouldRewrite(Get(resp.headers, "content-type")) then
      var text := BodyText(resp.body, decode);
      ReplaceAllMatchesFind(text, target, host);
      if NullBodyStatus(resp.status) then Thrown(BodyOnNullBodyStatus)
      else Done(resp.(body := Decoded(ReplaceAll(text, target, host))))
    else Done(resp)
  }

  /** A response on the gate's list that has no body at all (`null`) is read
      as the empty text, so it reaches the client with an empty text body. */
  lemma NullBodyBecomesEmptyText(resp: Response, target: string, host: string, decode: Decoder)
    requires |target| > 0
    requires resp.body == Null
    requires ShouldRewrite(Get(resp.headers, "content-type")) && !NullBodyStatus(resp.status)
    ensures RewriteBody(resp, target, host, decode) == Done(resp.(body := Decoded("")))
  {
    assert FindFrom(Literal, "", target, 0) == None;
    assert ReplaceAllByFind("", target, host) == Copy("", 0, 0) == "";
  }

  /** Replacing throughout the empty text gives the empty text. */
  lemma EmptyTextStaysEmpty(target: string, host: string)
    requires |target| > 0
    ensures ReplaceAllByFind("", target, host) == ""
  {
    assert FindFrom(Literal, "", target, 0) == None;
    assert Copy("", 0, 0) == "";
  }

  /** The redirect step touches only `Location`: the cookie lines and the
      content type the later steps read are the origin's. */
  lemma RedirectKeepsCookiesAndType(resp: Response, moved: Response, base: string, target: string, host: string, resolve: Resolver)
    requires RewriteRedirect(resp, base, target, host, resolve) == Done(moved)
    ensures Values(moved.headers, "Set-Cookie") == Values(resp.headers, "Set-Cookie")
    ensures Get(moved.headers, "content-type") == Get(resp.headers, "content-type")
  {
    assert !SameName("Set-Cookie", "Location");
    assert !SameName("content-type", "Location");
  }

  /** The proxy host contains the target domain, so the rewritten body can
      still mention it: a text that is just the target becomes the proxy host
      `target + suffix`, which begins with the target again (`x.io` becomes
      `x.io.b.com`). */
  lemma RewrittenBodyStillMentionsTarget(target: string, suffix: string)
    requires |target| > 0
    ensures ReplaceAll(target, target, target + suffix) == target + suffix
    ensures MatchAt(Literal, ReplaceAll(target, target, target + suffix), target, 0)
  {
    var host := target + suffix;
    LiteralMatchIsSlice(target, target, 0);
    assert ReplaceAllFrom(target, target, host, 0) == host + [];
    LiteralMatchIsSlice(host, target, 0);
    assert host[0..|target|] == target;
  }

  /** A charset parameter does not stop the gate from opening. */
  lemma HtmlWithCharsetIsRewritten()
    ensures ShouldRewrite(Some("text/html; charset=utf-8"))
  {
    LiteralMatchIsSlice("text/html; charset=utf-8", "text/html", 0);
    assert "text/html; charset=utf-8"[0..9] == "text/html";
    assert Contains("text/html; charset=utf-8", ContentTypesToProcess[0]);
  }

  /** A binary type keeps the gate shut, and so does an upper-case spelling
      of a listed type: the comparison is case-sensitive. */
  lemma UnlistedTypesPassThrough(ct: string)
    requires ct == "application/octet-stream" || ct == "TEXT/HTML"
    ensures !ShouldRewrite(Some(ct))
    ensures !ShouldRewrite(None)
  {
    GateShutWithoutMarkers(ct);
  }

  /** Every listed type contains a lower-case `t`; the `text/` types contain
      an `x` and the `application/` types a `j`. A content type lacking
      either those two letters or the `t` opens no gate. */
  lemma GateShutWithoutMarkers(ct: string)
    requires ('x' !in ct && 'j' !in ct) || 't' !in ct
    ensures !ShouldRewrite(Some(ct))
  {
    var types := ContentTypesToProcess;
    forall k | 0 <= k < |types| ensures !Contains(ct, types[k]) {
      var c := if 't' !in ct then 't' else if k in {0, 1, 4} then 'x' else 'j';
      assert c in types[k];
      Absent(ct, types[k], c);
    }
  }

  /** A pattern holding a character the subject lacks does not occur in it. */
  lemma Absent(s: string, pat: string, c: char)
    requires c in pat && c !in s
    ensures !Contains(s, pat)
  {
    forall j ensures MatchAt(Literal, s, pat, j) ==> forall k :: 0 <= k < |pat| ==> pat[k] in s {
      MatchedCharsOccur(s, pat, j);
    }
  }

  lemma MatchedCharsOccur(s: string, pat: string, j: int)
    ensures MatchAt(Literal, s, pat, j) ==> forall k :: 0 <= k < |pat| ==> pat[k] in s
  {
    if MatchAt(Literal, s, pat, j) {
      forall k | 0 <= k < |pat| ensures pat[k] in s {
        assert s[j + k] == pat[k];
      }
    }
  }

  /** The rewrite of one cookie: the first case-insensitive match of
      `Domain=<target>`, read as a pattern whose dots match any character,
      becomes `Domain=<host>`. */
  function RewriteCookie(cookie: string, target: string, host: string): (r: string)
    ensures NoMatch(CookiePattern, cookie, "Domain=" + target) ==> r == cookie
    ensures forall i :: FirstMatch(CookiePattern, cookie, "Domain=" + target, i) ==>
      && |r| == |cookie| - |target| + |host|
      && r[..i] == cookie[..i]
      && r[i..i + 7 + |host|] == "Domain=" + host
      && r[i + 7 + |host|..] == cookie[i + 7 + |target|..]
  {
    ReplaceFirst(CookiePattern, cookie, "Domain=" + target, "Domain=" + host)
  }

  /** The cookie step. When `Set-Cookie` is present, its combined value is
      split on every comma; each piece has its first `Domain=<target>` match
      rewritten, is trimmed, and comes back as a `Set-Cookie` line of its own
      at the end of the list. Other headers are untouched. */
  function RewriteCookies(h: HeaderList, target: string, host: string): (r: HeaderList)
    ensures !Has(h, "Set-Cookie") ==> r == h
    ensures Has(h, "Set-Cookie") ==>
      var pieces := Split(Get(h, "Set-Cookie").value, ',');
      && |Values(r, "Set-Cookie")| == |pieces| == multiset(Get(h, "Set-Cookie").value)[','] + 1
      && forall k :: 0 <= k < |pieces| ==> Values(r, "Set-Cookie")[k] == Trim(RewriteCookie(pieces[k], target, host))
    ensures forall n :: !SameName(n, "Set-Cookie") ==> Values(r, n) == Values(h, n)
  {
    if Has(h, "Set-Cookie") then
      var pieces := Split(Get(h, "Set-Cookie").value, ',');
      var cookies := seq(|pieces|, k requires 0 <= k < |pieces| => Trim(RewriteCookie(pieces[k], target, host)));
      ReplaceValues(h, "Set-Cookie", cookies);
      AppendAll(Delete(h, "Set-Cookie"), "Set-Cookie", cookies)
    else h
  }

  /** The cookie step reads only the `Set-Cookie` values, so two header lists
      that agree on them get the same cookie lines, and it leaves `Location`
      as it was. */
  lemma CookieStepSeesOnlyCookies(a: HeaderList, b: HeaderList, target: string, host: string)
    requires Values(a, "Set-Cookie") == Values(b, "Set-Cookie")
    ensures Values(RewriteCookies(a, target, host), "Set-Cookie") == Values(RewriteCookies(b, target, host), "Set-Cookie")
    ensures Values(RewriteCookies(a, target, host), "Location") == Values(a, "Location")
  {
    assert !SameName("Location", "Set-Cookie");
  }

  /** A literal `Domain=<target>` is always found by the case-insensitive,
      dot-as-wildcard pattern, at that position or earlier. */
  lemma LiteralDomainAttributeIsFound(cookie: string, target: string, i: int)
    requires MatchAt(Literal, cookie, "Domain=" + target, i)
    ensures Find(CookiePattern, cookie, "Domain=" + target).Some?
    ensures Find(CookiePattern, cookie, "Domain=" + target).value <= i
  {
    var pat := "Domain=" + target;
    forall k | 0 <= k < |pat| ensures CharMatch(CookiePattern, cookie[i + k], pat[k]) {
      assert CharMatch(Literal, cookie[i + k], pat[k]);
    }
    assert MatchAt(CookiePattern, cookie, pat, i);
  }

  /** A `Domain=<target>` attribute written as the origin writes it is
      rewritten, and nothing else in the cookie changes, provided no `d` of
      either case comes before it (`session=abc; Domain=...; Path=/`, say). */
  lemma DomainAttributeRewritten(pre: string, target: string, host: string, tail: string)
    requires 'd' !in pre && 'D' !in pre
    ensures RewriteCookie(pre + ("Domain=" + target) + tail, target, host) == pre + ("Domain=" + host) + tail
  {
    var pat := "Domain=" + target;
    var c := pre + pat + tail;
    FirstDomainAttribute(pre, target, tail);
    FindIsFirstMatch(CookiePattern, c, pat, |pre|);
    assert c[..|pre|] == pre;
    assert c[|pre| + |pat|..] == tail;
  }

  /** In `pre + "Domain=" + target + tail`, with no `d` of either case in
      `pre`, the pattern's first match is the attribute itself. */
  lemma FirstDomainAttribute(pre: string, target: string, tail: string)
    requires 'd' !in pre && 'D' !in pre
    ensures FirstMatch(CookiePattern, pre + ("Domain=" + target) + tail, "Domain=" + target, |pre|)
  {
    var pat := "Domain=" + target;
    var c := pre + pat + tail;
    assert c[|pre|..|pre| + |pat|] == pat;
    LiteralMatchIsSlice(c, pat, |pre|);
    LiteralDomainAttributeIsFound(c, target, |pre|);
    forall j | 0 <= j < |pre| ensures !MatchAt(CookiePattern, c, pat, j) {
      assert c[j + 0] == pre[j] && pat[0] == 'D';
      AsciiLowerSources(pre[j], 'd');
    }
  }

  /** The pattern ignores letter case and lets each dot of the target domain
      stand for any character. */
  lemma CaseAndWildcardExample(pre: string, attr: string, target: string, host: string)
    requires pre == "x=1; " && attr == "domain=TxIO" && target == "t.io" && host == "t.io.b.com"
    ensures RewriteCookie(pre + attr, target, host) == pre + ("Domain=" + host)
  {
    var c := pre + attr;
    var pat := "Domain=" + target;
    forall k | 0 <= k < |pat| ensures CharMatch(CookiePattern, c[|pre| + k], pat[k]) {
      assert c[|pre| + k] == attr[k];
    }
    assert MatchAt(CookiePattern, c, pat, |pre|);
    forall j | 0 <= j < |pre| ensures !MatchAt(CookiePattern, c, pat, j) {
      assert c[j + 0] == pre[j];
      assert !CharMatch(CookiePattern, pre[j], pat[0]);
    }
    FindIsFirstMatch(CookiePattern, c, pat, |pre|);
    assert c[..|pre|] == pre;
    assert c[|pre| + |pat|..] == [];
    assert ReplaceFirst(CookiePattern, c, pat, "Domain=" + host) == pre + ("Domain=" + host) + [];
  }

  /** Splitting on every comma also splits a comma inside one cookie — the
      one in an `Expires=Wed, 21 Oct 2026 ...` date, say: a single origin
      cookie with one comma comes back as two `Set-Cookie` lines. */
  lemma CommaInsideCookieSplitsIt(front: string, back: string, target: string, host: string)
    requires ',' !in front && ',' !in back
    ensures Values(RewriteCookies([Header("Set-Cookie", front + "," + back)], target, host), "Set-Cookie")
         == [Trim(RewriteCookie(front, target, host)), Trim(RewriteCookie(back, target, host))]
  {
    var v := front + "," + back;
    var h := [Header("Set-Cookie", v)];
    assert h[1..] == [];
    assert Values(h, "Set-Cookie") == [v];
    assert Get(h, "Set-Cookie") == Some(v);
    var parts := [front, back];
    assert Join(parts[1..], [',']) == back;
    assert Join(parts, [',']) == v;
    SplitJoin(parts, ',');
  }

  /** Joining comma-free values with ", " yields one comma fewer than values. */
  lemma {:induction false} JoinedCommaCount(values: seq<string>)
    requires |values| > 0
    requires forall k :: 0 <= k < |values| ==> ',' !in values[k]
    ensures multiset(Join(values, ", "))[','] == |values| - 1
    decreases |values|
  {
    if |values| > 1 {
      JoinedCommaCount(values[1..]);
      var rest := Join(values[1..], ", ");
      assert Join(values, ", ") == values[0] + ", " + rest;
      assert multiset(values[0] + ", " + rest) == multiset(values[0]) + multiset(", ") + multiset(rest);
      assert multiset(", ")[','] == 1;
    }
  }

  /** When no original `Set-Cookie` value contains a comma, the step emits
      exactly one line per original line. */
  lemma CommaFreeCookiesKeepTheirCount(h: HeaderList, target: string, host: string)
    requires Has(h, "Set-Cookie")
    requires forall k :: 0 <= k < |Values(h, "Set-Cookie")| ==> ',' !in Values(h, "Set-Cookie")[k]
    ensures |Values(RewriteCookies(h, target, host), "Set-Cookie")| == |Values(h, "Set-Cookie")|
  {
    JoinedCommaCount(Values(h, "Set-Cookie"));
  }

  /** The final header step leaves the `Location` line alone. */
  lemma FinalizeKeepsLocation(h: HeaderList)
    ensures Values(Finalize(h), "Location") == Values(h, "Location")
  {
    assert !SameName("Location", "Access-Control-Allow-Origin");
    assert !SameName("Location", "Content-Security-Policy");
    assert !SameName("Location", "X-Frame-Options");
  }

  /** The final header step leaves the cookie lines alone. */
  lemma FinalizeKeepsCookies(h: HeaderList)
    ensures Values(Finalize(h), "Set-Cookie") == Values(h, "Set-Cookie")
  {
    assert !SameName("Set-Cookie", "Access-Control-Allow-Origin");
    assert !SameName("Set-Cookie", "Content-Security-Policy");
    assert !SameName("Set-Cookie", "X-Frame-Options");
  }

  /** The final policy: CORS opened to every origin, the two framing-related
      headers removed, every other header as the earlier steps left it. */
  function Finalize(h: HeaderList): (r: HeaderList)
    ensures Values(r, "Access-Control-Allow-Origin") == ["*"]
    ensures !Has(r, "Content-Security-Policy")
    ensures !Has(r, "X-Frame-Options")
    ensures forall n ::
      !SameName(n, "Access-Control-Allow-Origin") && !SameName(n, "Content-Security-Policy") && !SameName(n, "X-Frame-Options") ==>
        Values(r, n) == Values(h, n)
  {
    var withCors := Set(h, "Access-Control-Allow-Origin", "*");
    var r := Delete(Delete(withCors, "Content-Security-Policy"), "X-Frame-Options");
    assert !SameName("Access-Control-Allow-Origin", "Content-Security-Policy");
    assert !SameName("Access-Control-Allow-Origin", "X-Frame-Options");
    assert !SameName("Content-Security-Policy", "X-Frame-Options");
    r
  }
}

=== FILE: text.dfy ===
/**
 The string primitives of the JavaScript runtime that the proxy leans on:
 `includes`, `split`, `replace` (first match and global), `endsWith`, `trim`,
 and the two kinds of pattern the handler builds — a literal one and the
 unescaped, case-insensitive cookie pattern.

 Strings are sequences of Unicode scalar values.
 */
module Text {

  datatype Option<+T> = None | Some(value: T)

  /** ASCII lower-casing: header names and the `i` flag of the cookie pattern
      compare letters this way. */
  function AsciiLower(c: char): char
  {
    if 'A' <= c <= 'Z' then (c as int + 32) as char else c
  }

  /** Only a letter itself and its upper-case form lower to a letter. */
  lemma AsciiLowerSources(c: char, l: char)
    requires 'a' <= l <= 'z'
    ensures AsciiLower(c) == l ==> c == l || c as int == l as int - 32
  {
  }

  function LowerAscii(s: string): (r: string)
    ensures |r| == |s|
    ensures forall i :: 0 <= i < |s| ==> r[i] == AsciiLower(s[i])
  {
    seq(|s|, i requires 0 <= i < |s| => AsciiLower(s[i]))
  }

  /** The characters a RegExp `.` (without the `s` flag) refuses to match. */
  predicate LineTerminator(c: char)
  {
    c == '\n' || c == '\r' || c == '\U{2028}' || c == '\U{2029}'
  }

  /** WhiteSpace and LineTerminator of ECMAScript: what `String.prototype.trim` strips. */
  predicate JsWhitespace(c: char)
  {
    || c == '\t' || c == '\U{000B}' || c == '\U{000C}' || c == ' '
    || c == '\U{00A0}' || c == '\U{1680}' || ('\U{2000}' <= c <= '\U{200A}')
    || c == '\U{202F}' || c == '\U{205F}' || c == '\U{3000}' || c == '\U{FEFF}'
    || LineTerminator(c)
  }

  /** How one pattern character is compared with one subject character. */
  datatype Mode =
    | Literal        // a string pattern, or a RegExp whose only metacharacters were escaped
    | CookiePattern  // an unescaped RegExp with the `i` flag over a lower-case domain name

  predicate CharMatch(mode: Mode, c: char, p: char)
  {
    match mode
    case Literal => c == p
    case CookiePattern => if p == '.' then !LineTerminator(c) else AsciiLower(c) == AsciiLower(p)
  }

  /** `pat` matches `s` starting at index `i`. */
  predicate MatchAt(mode: Mode, s: string, pat: string, i: int)
  {
    && 0 <= i
    && i + |pat| <= |s|
    && forall k {:trigger pat[k]} :: 0 <= k < |pat| ==> CharMatch(mode, s[i + k], pat[k])
  }

  ghost predicate NoMatch(mode: Mode, s: string, pat: string)
  {
    forall j :: !MatchAt(mode, s, pat, j)
  }

  /** `i` is the left-most match: the one `replace` without the `g` flag and `split` act on. */
  ghost predicate FirstMatch(mode: Mode, s: string, pat: string, i: int)
  {
    MatchAt(mode, s, pat, i) && forall j :: 0 <= j < i ==> !MatchAt(mode, s, pat, j)
  }

  lemma LiteralMatchIsSlice(s: string, pat: string, i: int)
    ensures MatchAt(Literal, s, pat, i) <==> 0 <= i && i + |pat| <= |s| && s[i..i + |pat|] == pat
  {
    if 0 <= i && i + |pat| <= |s| && MatchAt(Literal, s, pat, i) {
      assert forall k :: 0 <= k < |pat| ==> s[i..i + |pat|][k] == pat[k];
    }
  }

  /** Left-most match at or after `from`. */
  function FindFrom(mode: Mode, s: string, pat: string, from: nat): (r: Option<nat>)
    ensures r.Some? ==> from <= r.value && MatchAt(mode, s, pat, r.value)
    ensures r.Some? ==> forall j :: from <= j < r.value ==> !MatchAt(mode, s, pat, j)
    ensures r.None? ==> forall j :: from <= j ==> !MatchAt(mode, s, pat, j)
    decreases |s| - from
  {
    if from + |pat| > |s| then None
    else if MatchAt(mode, s, pat, from) then Some(from)
    else FindFrom(mode, s, pat, from + 1)
  }

  function Find(mode: Mode, s: string, pat: string): (r: Option<nat>)
    ensures r.Some? ==> FirstMatch(mode, s, pat, r.value)
    ensures r.None? <==> NoMatch(mode, s, pat)
  {
    FindFrom(mode, s, pat, 0)
  }

  /** The left-most match is unique, and it is what `Find` reports. */
  lemma FindIsFirstMatch(mode: Mode, s: string, pat: string, i: int)
    requires FirstMatch(mode, s, pat, i)
    ensures Find(mode, s, pat) == Some(i)
  {
    var f := Find(mode, s, pat);
    assert f.Some? ==> FirstMatch(mode, s, pat, f.value);
  }

  /** `s.includes(pat)`. */
  predicate Contains(s: string, pat: string)
  {
    Find(Literal, s, pat).Some?
  }

  /** `s.endsWith(suffix)`. */
  predicate EndsWith(s: string, suffix: string)
  {
    |suffix| <= |s| && s[|s| - |suffix|..] == suffix
  }

  /** `includes` holds exactly when the pattern occurs somewhere. */
  lemma ContainsIffOccurs(s: string, pat: string)
    ensures Contains(s, pat) <==> exists i :: MatchAt(Literal, s, pat, i)
  {
    if Contains(s, pat) {
      assert MatchAt(Literal, s, pat, Find(Literal, s, pat).value);
    }
  }

  /** `endsWith` holds exactly when the suffix occurs at the very end, so a
      string that ends with a pattern also includes it. */
  lemma EndsWithIffMatchAtEnd(s: string, suffix: string)
    ensures EndsWith(s, suffix) <==> |suffix| <= |s| && MatchAt(Literal, s, suffix, |s| - |suffix|)
    ensures EndsWith(s, suffix) ==> Contains(s, suffix)
  {
    LiteralMatchIsSlice(s, suffix, |s| - |suffix|);
    if EndsWith(s, suffix) {
      assert s[|s| - |suffix|..] == s[|s| - |suffix|..|s| - |suffix| + |suffix|];
      assert !NoMatch(Literal, s, suffix);
    }
  }

  /** `s.replace(pattern, rep)` without the `g` flag: the left-most match only. */
  function ReplaceFirst(mode: Mode, s: string, pat: string, rep: string): (r: string)
    ensures NoMatch(mode, s, pat) ==> r == s
    ensures forall i :: FirstMatch(mode, s, pat, i) ==> r == s[..i] + rep + s[i + |pat|..]
  {
    match Find(mode, s, pat)
    case None => s
    case Some(i) => s[..i] + rep + s[i + |pat|..]
  }

  /** `s[i..j]`, built one character at a time (see `CopyIsSlice`). The
      replacement proofs use it instead of slices of `s`. */
  function Copy(s: string, i: nat, j: nat): string
    requires i <= j <= |s|
    decreases j - i
  {
    if i == j then [] else [s[i]] + Copy(s, i + 1, j)
  }

  lemma {:induction false} CopyIsSlice(s: string, i: nat, j: nat)
    requires i <= j <= |s|
    ensures Copy(s, i, j) == s[i..j]
    decreases j - i
  {
    if i < j {
      CopyIsSlice(s, i + 1, j);
      assert [s[i]] + s[i + 1..j] == s[i..j];
    }
  }

  /** The scan behind `s.replace(/pat/g, rep)` for a literal pattern, from
      position `i` on: each match is replaced and the scan resumes after it,
      so matches never overlap; elsewhere characters are copied. */
  function ReplaceAllFrom(s: string, pat: string, rep: string, i: nat): string
    requires |pat| > 0 && i <= |s|
    decreases |s| - i
  {
    if i == |s| then []
    else if MatchAt(Literal, s, pat, i) then rep + ReplaceAllFrom(s, pat, rep, i + |pat|)
    else [s[i]] + ReplaceAllFrom(s, pat, rep, i + 1)
  }

  /** Without a match from `i` on, the scan copies the rest of `s`. */
  lemma {:induction false} ReplaceAllFromWithoutMatch(s: string, pat: string, rep: string, i: nat)
    requires |pat| > 0 && i <= |s|
    requires forall j :: i <= j ==> !MatchAt(Literal, s, pat, j)
    ensures ReplaceAllFrom(s, pat, rep, i) == Copy(s, i, |s|)
    decreases |s| - i
  {
    if i < |s| {
      ReplaceAllFromWithoutMatch(s, pat, rep, i + 1);
    }
  }

  /** `s.replace(/pat/g, rep)` for a literal pattern. */
  function ReplaceAll(s: string, pat: string, rep: string): (r: string)
    requires |pat| > 0
    ensures NoMatch(Literal, s, pat) ==> r == s
  {
    ScanWithoutMatchIsIdentity(s, pat, rep);
    ReplaceAllFrom(s, pat, rep, 0)
  }

  lemma ScanWithoutMatchIsIdentity(s: string, pat: string, rep: string)
    requires |pat| > 0
    ensures NoMatch(Literal, s, pat) ==> ReplaceAllFrom(s, pat, rep, 0) == s
  {
    if NoMatch(Literal, s, pat) {
      ReplaceAllFromWithoutMatch(s, pat, rep, 0);
      CopyIsSlice(s, 0, |s|);
      assert s[0..|s|] == s;
    }
  }

  /** An independent description of global replacement: find the left-most
      match at or after `i`, copy up to it, emit `rep`, and carry on after the
      match — the `lastIndex` loop a global regular expression runs. */
  function ReplaceAllByFindFrom(s: string, pat: string, rep: string, i: nat): string
    requires |pat| > 0 && i <= |s|
    decreases |s| - i
  {
    match FindFrom(Literal, s, pat, i)
    case None => Copy(s, i, |s|)
    case Some(j) => Copy(s, i, j) + rep + ReplaceAllByFindFrom(s, pat, rep, j + |pat|)
  }

  function ReplaceAllByFind(s: string, pat: string, rep: string): string
    requires |pat| > 0
  {
    ReplaceAllByFindFrom(s, pat, rep, 0)
  }

  /** No match starts in `[i, k)`, so the scan copies `s[i..k]` unchanged. */
  lemma {:induction false} ReplaceAllSkips(s: string, pat: string, rep: string, i: nat, k: nat)
    requires |pat| > 0 && i <= k <= |s|
    requires forall j :: i <= j < k ==> !MatchAt(Literal, s, pat, j)
    ensures ReplaceAllFrom(s, pat, rep, i) == Copy(s, i, k) + ReplaceAllFrom(s, pat, rep, k)
    decreases k - i
  {
    if i < k {
      ReplaceAllSkips(s, pat, rep, i + 1, k);
      var x := ReplaceAllFrom(s, pat, rep, k);
      assert [s[i]] + (Copy(s, i + 1, k) + x) == ([s[i]] + Copy(s, i + 1, k)) + x;
    }
  }

  /** The scan and the find-and-continue description agree from every position. */
  lemma {:induction false} ReplaceAllFromMatchesFind(s: string, pat: string, rep: string, i: nat)
    requires |pat| > 0 && i <= |s|
    ensures ReplaceAllFrom(s, pat, rep, i) == ReplaceAllByFindFrom(s, pat, rep, i)
    decreases |s| - i
  {
    match FindFrom(Literal, s, pat, i)
    case None =>
      ReplaceAllFromWithoutMatch(s, pat, rep, i);
    case Some(j) =>
      var x := ReplaceAllFrom(s, pat, rep, j + |pat|);
      ReplaceAllSkips(s, pat, rep, i, j);
      assert ReplaceAllFrom(s, pat, rep, j) == rep + x;
      ReplaceAllFromMatchesFind(s, pat, rep, j + |pat|);
      assert Copy(s, i, j) + (rep + x) == Copy(s, i, j) + rep + x;
  }

  lemma ReplaceAllMatchesFind(s: string, pat: string, rep: string)
    requires |pat| > 0
    ensures ReplaceAll(s, pat, rep) == ReplaceAllByFind(s, pat, rep)
  {
    ReplaceAllFromMatchesFind(s, pat, rep, 0);
  }

  /** `parts.join(sep)`. */
  function Join(parts: seq<string>, sep: string): string
  {
    if |parts| == 0 then ""
    else if |parts| == 1 then parts[0]
    else parts[0] + sep + Join(parts[1..], sep)
  }

  /** No character of `s[a..b]` is `c`. */
  lemma {:induction false} CopyAvoids(s: string, c: char, a: nat, b: nat)
    requires a <= b <= |s|
    requires forall j :: a <= j < b ==> s[j] != c
    ensures c !in Copy(s, a, b)
    decreases b - a
  {
    if a < b {
      CopyAvoids(s, c, a + 1, b);
    }
  }

  lemma {:induction false} CopyConcat(s: string, a: nat, b: nat, e: nat)
    requires a <= b <= e <= |s|
    ensures Copy(s, a, b) + Copy(s, b, e) == Copy(s, a, e)
    decreases b - a
  {
    if a < b {
      CopyConcat(s, a + 1, b, e);
      assert [s[a]] + Copy(s, a + 1, b) + Copy(s, b, e) == [s[a]] + (Copy(s, a + 1, b) + Copy(s, b, e));
    }
  }

  /** The scan behind `s.split(c)` for a one-character separator: the piece
      being collected starts at `start`, the scan stands at `i`. */
  function SplitFrom(s: string, c: char, start: nat, i: nat): (r: seq<string>)
    requires start <= i <= |s|
    requires forall j :: start <= j < i ==> s[j] != c
    ensures |r| == multiset(Copy(s, i, |s|))[c] + 1
    ensures forall k :: 0 <= k < |r| ==> c !in r[k]
    ensures Join(r, [c]) == Copy(s, start, |s|)
    decreases |s| - i
  {
    CopyAvoids(s, c, start, i);
    if i == |s| then [Copy(s, start, i)]
    else if s[i] == c then
      var rest := SplitFrom(s, c, i + 1, i + 1);
      CopyConcat(s, start, i, |s|);
      assert Copy(s, start, i) + ([c] + Copy(s, i + 1, |s|)) == Copy(s, start, i) + [c] + Copy(s, i + 1, |s|);
      assert ([Copy(s, start, i)] + rest)[1..] == rest;
      [Copy(s, start, i)] + rest
    else
      SplitFrom(s, c, start, i + 1)
  }

  /** `s.split(c)` for a one-character separator: the pieces between
      separators, as many as there are separators plus one. */
  function Split(s: string, c: char): (r: seq<string>)
    ensures |r| == multiset(s)[c] + 1
    ensures forall k :: 0 <= k < |r| ==> c !in r[k]
    ensures Join(r, [c]) == s
  {
    CopyIsSlice(s, 0, |s|);
    assert s[0..|s|] == s;
    SplitFrom(s, c, 0, 0)
  }

  /** Where the first separator of a join sits: a single piece is the whole
      string; otherwise the first piece is followed by the separator. */
  lemma JoinFirstSeparator(r: seq<string>, c: char)
    requires |r| > 0
    requires forall k :: 0 <= k < |r| ==> c !in r[k]
    ensures |r| == 1 ==> c !in Join(r, [c])
    ensures |r| > 1 ==> |r[0]| < |Join(r, [c])| && Join(r, [c])[|r[0]|] == c
    ensures forall j :: 0 <= j < |r[0]| ==> j < |Join(r, [c])| && Join(r, [c])[j] == r[0][j] != c
  {
    if |r| > 1 {
      assert Join(r, [c]) == r[0] + [c] + Join(r[1..], [c]);
    }
  }

  /** A string has one decomposition into separator-free pieces. */
  lemma {:induction false} JoinInjective(r1: seq<string>, r2: seq<string>, c: char)
    requires |r1| > 0 && |r2| > 0
    requires forall k :: 0 <= k < |r1| ==> c !in r1[k]
    requires forall k :: 0 <= k < |r2| ==> c !in r2[k]
    requires Join(r1, [c]) == Join(r2, [c])
    ensures r1 == r2
    decreases |r1|
  {
    var s := Join(r1, [c]);
    JoinFirstSeparator(r1, c);
    JoinFirstSeparator(r2, c);
    assert |r1| == 1 <==> |r2| == 1;
    if |r1| > 1 {
      var m := |r1[0]|;
      assert |r2[0]| == m;
      assert s == r1[0] + [c] + Join(r1[1..], [c]);
      assert s == r2[0] + [c] + Join(r2[1..], [c]);
      assert r1[0] == s[..m] == r2[0];
      assert Join(r1[1..], [c]) == s[m + 1..] == Join(r2[1..], [c]);
      JoinInjective(r1[1..], r2[1..], c);
      assert r1 == [r1[0]] + r1[1..];
      assert r2 == [r2[0]] + r2[1..];
    }
  }

  /** Splitting undoes joining, for pieces that do not contain the separator. */
  lemma SplitJoin(parts: seq<string>, c: char)
    requires |parts| > 0
    requires forall k :: 0 <= k < |parts| ==> c !in parts[k]
    ensures Split(Join(parts, [c]), c) == parts
  {
    var s := Join(parts, [c]);
    JoinInjective(Split(s, c), parts, c);
  }

  /** Number of leading characters that `trim` removes. */
  function LeadingSpace(s: string): (n: nat)
    ensures n <= |s|
    ensures forall k :: 0 <= k < n ==> JsWhitespace(s[k])
    ensures n < |s| ==> !JsWhitespace(s[n])
    decreases |s|
  {
    if |s| == 0 || !JsWhitespace(s[0]) then 0 else 1 + LeadingSpace(s[1..])
  }

  /** Number of trailing characters that `trim` removes. */
  function TrailingSpace(s: string): (n: nat)
    ensures n <= |s|
    ensures forall k :: |s| - n <= k < |s| ==> JsWhitespace(s[k])
    ensures n < |s| ==> !JsWhitespace(s[|s| - n - 1])
    decreases |s|
  {
    if |s| == 0 || !JsWhitespace(s[|s| - 1]) then 0 else 1 + TrailingSpace(s[..|s| - 1])
  }

  /** `s.trim()`: the longest infix that neither starts nor ends with white space. */
  function Trim(s: string): (r: string)
    ensures LeadingSpace(s) + |r| <= |s|
    ensures r == s[LeadingSpace(s)..LeadingSpace(s) + |r|]
    ensures forall k :: LeadingSpace(s) + |r| <= k < |s| ==> JsWhitespace(s[k])
    ensures |r| > 0 ==> !JsWhitespace(r[0]) && !JsWhitespace(r[|r| - 1])
  {
    var rest := s[LeadingSpace(s)..];
    rest[..|rest| - TrailingSpace(rest)]
  }

  ghost predicate AllWhitespace(s: string)
  {
    forall k :: 0 <= k < |s| ==> JsWhitespace(s[k])
  }

  /** The leading-space count is the only count with its three properties. */
  lemma LeadingSpaceUnique(s: string, n: nat)
    requires n <= |s| && AllWhitespace(s[..n])
    requires n < |s| ==> !JsWhitespace(s[n])
    ensures LeadingSpace(s) == n
  {
    var l := LeadingSpace(s);
    assert forall k :: 0 <= k < n ==> s[..n][k] == s[k];
  }

  lemma TrailingSpaceUnique(s: string, n: nat)
    requires n <= |s| && AllWhitespace(s[|s| - n..])
    requires n < |s| ==> !JsWhitespace(s[|s| - n - 1])
    ensures TrailingSpace(s) == n
  {
    var l := TrailingSpace(s);
    assert forall k :: |s| - n <= k < |s| ==> s[|s| - n..][k - (|s| - n)] == s[k];
  }

  /** `trim` is pinned down by its output: white space around a middle part
      that does not begin or end with white space is exactly what it strips. */
  lemma TrimCharacterized(front: string, middle: string, back: string)
    requires AllWhitespace(front) && AllWhitespace(back)
    requires |middle| > 0 ==> !JsWhitespace(middle[0]) && !JsWhitespace(middle[|middle| - 1])
    ensures Trim(front + middle + back) == middle
  {
    var s := front + middle + back;
    if |middle| == 0 {
      assert s == front + back;
      assert AllWhitespace(s[..|s|]) by {
        forall k | 0 <= k < |s| ensures JsWhitespace(s[k]) {
          if k < |front| { assert s[k] == front[k]; } else { assert s[k] == back[k - |front|]; }
        }
      }
      LeadingSpaceUnique(s, |s|);
    } else {
      assert s[..|front|] == front;
      assert s[|front|] == middle[0];
      LeadingSpaceUnique(s, |front|);
      var rest := s[|front|..];
      assert rest == middle + back;
      assert rest[|rest| - |back|..] == back;
      assert rest[|rest| - |back| - 1] == middle[|middle| - 1];
      TrailingSpaceUnique(rest, |back|);
      assert rest[..|middle|] == middle;
    }
  }

  lemma TrimIdempotent(s: string)
    ensures Trim(Trim(s)) == Trim(s)
  {
    TrimCharacterized([], Trim(s), []);
    assert [] + Trim(s) + [] == Trim(s);
  }
}
